=== FILE: README.md ===
# LLM-Frames: semantic operations over a table, in Dafny

LLM-Frames augments a table with columns whose values come from a language-model API. The caller
describes a *semantic operation*: an input column, a prompt, an output column, and optionally
a system message, a model name, pass-through model parameters and a structured-output schema.
The system then does one of three things:

* it calls the chat-completion client once per row and writes the answers into the output column (`extend`);
* it renders one batch request per row for the offline batch API (`create_batch_file`);
* it estimates how many input tokens the operation would consume (`estimate_input_token_usage`).

This project models that core as immutable datatypes and pure functions:

* `wrappers.dfy`: `Option` and `Result`. Python's `None` and raised exceptions are modelled with these.
* `passes.dfy`: the two kinds of pass the frame makes. A row-wise pass stops at the first failing
  row. A sequential pass over the operation list works on the state the previous operation left.
* `values.dfy`: a JSON-like `Value`, plus Python truthiness of optional strings (`None` and `""` are both false).
* `operations.dfy`: `SemanticOperation`, message construction, the dictionary form of messages and of
  the `response_format` block, and batch-request construction.
* `frame.dfy`: the table (a sequence of rows, each a map from column name to `Value`), `extend`,
  and batch-file creation.
* `tokens.dfy`: per-row token counting, and the total/maximum/minimum aggregate.
* `scenarios.dfy`: concrete instances. These cover a two-row review table, the truthiness edge
  cases, parameter overwrites, and both sides of the 50,000-row bound.

The collaborators outside the core are parameters of the model:

* the completion client, `Completion`, which returns the content of the first choice or a failure;
* Python's `str()` of a non-string cell, `Formatter`;
* the tokenizer library, `Tokenizer`, which says which model names have an encoding and counts tokens.

Behaviours of the code worth knowing:

* Parameters are passed on as they are, with no check of their names. In a batch body a parameter
  named `model` or `messages` overwrites that field, and the structured-output block overwrites a
  parameter named `response_format`. In a synchronous call a parameter named `model` or `messages`
  repeats a keyword argument the call already passes, so Python refuses the call (a `TypeError`)
  before the client is reached, on every row.
* Column names are not checked; any string, the empty one included, is accepted.
* An empty system message is dropped, because the test is for truthiness.
* An empty model name falls back to `gpt-4o-mini` in a synchronous call. The batch body stores
  the model name as given, with `None` becoming `null`.
* When a completion fails inside `extend`, the failing operation's column is not written at all.
  The row-wise pass raises before the column assignment. Earlier operations stay applied.
* A context cell that is not a string is not rejected: the prompt formats it like Python's `str()`.
* Token counting without a model name fails like an unknown model.
* Token counting fails on a text that holds a special token of the model's encoding, such as
  `<|endoftext|>`, because the encoder refuses special tokens by default.

## Model

| member | source | states |
|---|---|---|
| Operations.ConstructMessages | llm_frames/operations.py:23-32 | roles are `[system, user]` when the system message is a non-empty string and `[user]` otherwise; the system message is copied verbatim; the last content is prompt + " Context: " + context |
| Operations.RecoverContextInverts | llm_frames/operations.py:30-31 | the context is passed through with no escaping or truncation: it is read back exactly from the messages, even when empty or containing the separator |
| Operations.MessagesDifferOnlyInContext | llm_frames/operations.py:26-32 | all rows of one operation get the same number of messages and the same messages before the user message; two contexts give equal message lists exactly when they are equal |
| Operations.DecodeEncodeAll | llm_frames/operations.py:28-31 | a list of role/content dictionaries decodes back to exactly the messages encoded |
| Operations.MessagesRoundTrip | llm_frames/operations.py:43 | the `messages` value of a body decodes back to exactly the messages it was built from |
| Operations.ResponseFormatRoundTrip | llm_frames/operations.py:51-58 | the structured-output block is a strict `json_schema` block from which the schema name and schema are recovered |
| Operations.ConstructBatchRequest | llm_frames/operations.py:34-59 | custom id as given, method POST, url /v1/chat/completions; the body keys are model, messages, every parameter, and response_format when a schema is set |
| Operations.BatchRequestBody | llm_frames/operations.py:41-58 | every parameter's value is in the body unless the structured-output block replaced it; model and messages hold the model name (or null) and the rendered messages unless a parameter overwrote them; the block decodes to the operation's schema |
| Operations.BareBody | llm_frames/operations.py:41-50 | without parameters and without a response format the body has exactly the keys model and messages |
| Operations.BodyIndependentOfId | llm_frames/operations.py:37-45 | the body does not depend on the custom id |
| Passes.MapAll | llm_frames/llm_frame.py:18-20 | a row-wise pass succeeds with one result per row, in row order, or fails with the error of the first failing row after all earlier rows succeeded |
| Passes.MapUntilFailure | llm_frames/llm_frame.py:46-51 | a writing loop yields one result per element in order; on a failure it keeps exactly the results before the first failing element, which yields the error |
| Passes.RunAllChains | llm_frames/llm_frame.py:17-20 | running steps xs + ys is running xs and then, unless that failed, ys |
| Passes.RunAllFailurePrefix | llm_frames/llm_frame.py:17-20 | a failed sequential pass holds the state after the steps before the failing one, and the failing step's error on that state |
| Passes.RunAllPreserves | llm_frames/llm_frame.py:17-20 | a property every successful step preserves holds of the state a sequential pass ends in |
| Passes.RunPair | llm_frames/llm_frame.py:17-20 | a successful two-step pass is the first step's success followed by the second's on its result |
| Frame.ApplyOperation | llm_frames/llm_frame.py:22-33 | a missing input column fails first; a parameter named model or messages then makes the call fail with the repeated keywords; otherwise the client's answer is the result and the client's failure is `CompletionFailed` with its reason, for the model name or gpt-4o-mini, the row's messages and the parameters or {} |
| Frame.ApplyIgnoresResponseFormat | llm_frames/llm_frame.py:28-32 | the synchronous call does not send the structured-output schema: changing it never changes the request a row sends (model, messages, parameters), so the outcome is the same for every client |
| Frame.ApplyReadsOnlyInputCell | llm_frames/llm_frame.py:25-32 | two rows that agree on the input cell (or both lack it) send the same request, whatever their other columns hold, so the outcome is the same for every client |
| Frame.ExtendOne | llm_frames/llm_frame.py:18-20 | a successful operation keeps the number of rows |
| Frame.ExtendOneRowwise | llm_frames/llm_frame.py:17-33 | one operation succeeds exactly when every row succeeds; then each row gains the output column holding its own result, in row order; otherwise the error is the first failing row's |
| Frame.OnlyOutputColumnChanges | llm_frames/llm_frame.py:18-20 | an operation changes no column but its output column, in any row |
| Frame.Extend | llm_frames/llm_frame.py:14-20 | extend never changes the number of rows, whether it succeeds or fails |
| Frame.ExtendChains | llm_frames/llm_frame.py:17-20 | extending by ops1 + ops2 is extending by ops1 and then, unless that failed, by ops2 |
| Frame.ExtendFailureKeepsPrefix | llm_frames/llm_frame.py:17-20 | after a failure the table is exactly the result of the operations before the failing one, and the reported error is that operation's error on that table |
| Frame.ExtendPair | llm_frames/llm_frame.py:17-20 | a successful two-operation extend is the first operation's successful step followed by the second's on its result |
| Frame.ChainedOperationSeesEarlierResult | llm_frames/llm_frame.py:17-33 | when an operation reads an earlier one's output column, each row's answer is the completion of the messages built from the earlier result of that same row |
| Frame.BatchEntry | llm_frames/llm_frame.py:47-50 | a row yields an entry exactly when it has the input and id columns; a missing input column is reported before a missing id column; and the entry is the batch request of its input cell with its id cell as custom id |
| Frame.TextCellReachesPrompt | llm_frames/llm_frame.py:25-32 | a string input cell reaches the client unchanged: the last message sent, and the messages the batch body stores when no parameter replaces them, end with the user message prompt + " Context: " + the cell's text |
| Frame.WriteEntries | llm_frames/llm_frame.py:45-51 | one entry per row in row order; on a failure the entries written are those of the rows before the first bad row, which yields the error |
| Frame.CreateBatchFile | llm_frames/llm_frame.py:35-51 | refused with BatchSizeExceeded exactly when the table has 50,000 rows or more; otherwise, on success, entry i is row i's request and carries row i's id; below the bound a failure keeps the entries of the rows before the first row lacking a column, and reports that row's missing column (the input column first) |
| Frame.CompleteBatchFile | llm_frames/llm_frame.py:43-51 | below the bound, a table whose rows all carry both columns yields one entry per row |
| Tokens.RowTokens | llm_frames/llm_frame.py:70-75 | a row is counted exactly when it has a string input cell without special tokens and the model has an encoding; the count is that of the raw input text; missing column, unknown or absent model, non-string cell, and text holding a special token each give their error, in that order |
| Tokens.CountAtMostSum | llm_frames/llm_frame.py:63-65 | no row's count exceeds the total |
| Tokens.TokenStats | llm_frames/llm_frame.py:62-67 | total is the sum; every count lies between min and max; max and min are counts that occur; max is at most the total |
| Tokens.EstimateInputTokenUsage | llm_frames/llm_frame.py:55-68 | succeeds exactly when every row can be counted; total is the sum of the per-row counts of the raw input text; max and min are the counts of some row, and min <= count <= max for every row; max <= total; a single row gives total = max = min; a failure is the first failing row's error |
| Scenarios.FirstReviewRequest | llm_frames/operations.py:37-44 | the request for review "bad" has the single user message "Classify sentiment. Context: bad" and a null model |
| Scenarios.ReviewBatch | llm_frames/llm_frame.py:45-51 | two review rows give two entries in row order, the first being the request for "bad" with id a and the second carrying id b |
| Scenarios.ReviewSystemMessage | llm_frames/operations.py:27-31 | a system message heads every row's two messages unchanged |
| Scenarios.EmptySystemMessageDropped | llm_frames/operations.py:27 | an empty system message gives a single user message |
| Scenarios.EmptyModelNameUsesDefault | llm_frames/llm_frame.py:29 | an empty model name falls back to gpt-4o-mini |
| Scenarios.TemperatureParameter | llm_frames/operations.py:46-48 | a temperature parameter sits at the top level of the body beside model and messages |
| Scenarios.ModelParameterOverwrites | llm_frames/operations.py:41-48 | a parameter named model replaces the model field |
| Scenarios.BatchBound | llm_frames/llm_frame.py:43 | 49,999 rows are written and 50,000 rows are refused |

## Left out

- The network call to the chat-completion API and the unpacking of `choices[0].message.content` (llm_frames/llm_frame.py:28-33) are external I/O. They are replaced by the `Completion` parameter.
- The client is modelled as a function of its request: identical requests get identical answers. The real API samples its answers and does not guarantee this, so the model's statements about equal outcomes mean that the same request is sent.
- Opening and writing the batch file, and the closing `print` (llm_frames/llm_frame.py:45-53), are I/O. The model returns the sequence of entries the file receives. The file holds Python's `str()` of each dictionary, one per line, which is not JSON; no serialization is modelled. When the size guard fails the file is never opened, which the model does not distinguish from an empty file.
- Dictionary key order is not modelled: the body is a map. The order only shows in the serialized text, which is left out.
- `tiktoken.encoding_for_model` and the encoder (llm_frames/llm_frame.py:73-74) are a foreign library. They are replaced by the `Tokenizer` parameter.
- `average_tokens` (llm_frames/llm_frame.py:64) is a floating-point mean and is not modelled.
- Frame.CreateBatchFile: the 50,000-request limit is a Python `assert`. It raises an `AssertionError`, modelled as `BatchSizeExceeded`, and Python drops it entirely when run with `-O`, so no limit applies then. The model always applies the limit, as with assertions enabled (the default).
- Frame.ApplyOperation: Python's `TypeError` names one repeated keyword, chosen by the dictionary's key order. The model reports the set of repeated keywords, because key order is not modelled.
- Tokens.EstimateInputTokenUsage: requires a non-empty table, because on an empty table pandas yields NaN for the maximum and minimum.
- pydantic's `model_json_schema()` and `__name__` (llm_frames/operations.py:54-55) are modelled as an opaque schema value and a name.
- Python's `str()` of a non-string cell is the `Formatter` parameter. A cell holding `nan` or an infinity is a `NonFinite` value, which the formatter is meant to render as Python does (`"nan"`, `"inf"`, `"-inf"`); the model does not fix that rendering. Finite floats are Dafny reals, so float rounding is not modelled. Pandas cell types other than these JSON-like values (timestamps, categoricals and the like) have no `Value` of their own.
- The pandas row-wise `apply` and `iterrows` machinery is modelled as an in-order pass over a sequence of rows. The shape pandas gives `apply` on an empty table is not modelled; an empty table is left as it is.
- In pandas every row has the same columns. The model lets rows differ and reports a missing column per row.

=== FILE: frame.dfy ===
/** The frame extender: a table is a sequence of rows, each a map from column
    name to cell. The completion client and the formatting of non-text cells
    are parameters; everything else follows the Python code. */
module Frame {
  import opened Wrappers
  import opened Values
  import opened Operations
  import opened Passes

  type Row = map<string, Value>
  type Table = seq<Row>

  /** The model used for a synchronous call when the operation names none. */
  const DefaultModel: string := "gpt-4o-mini"
  /** A batch file must hold strictly fewer requests than this. */
  const MaxBatchRequests: nat := 50000

  datatype Error =
    | MissingColumn(column: string)           // a row has no such column
    | CompletionFailed(reason: string)        // the completion client raised
    | BatchSizeExceeded                       // the table is too large for one batch file
    | UnsupportedModel(model: Option<string>) // the tokenizer knows no encoding for the model
    | NotText(column: string)                 // the tokenizer was handed a cell that is not a string
    | SpecialToken(column: string)            // the input text holds a special token the encoder refuses
    | RepeatedKeyword(names: set<string>)     // a parameter repeats a keyword the call already passes

  /** The completion client: model, messages and keyword parameters in, the
      content of the first choice (a string or `null`) or a failure out. */
  type Completion = (string, seq<Message>, map<string, Value>) -> Result<Value, string>

  /** Python's `str()` of a cell that is not already a string. */
  type Formatter = Value -> string

  /** The text a cell contributes to a prompt: a string cell verbatim,
      anything else as Python formats it. */
  function ContextText(cell: Value, show: Formatter): (s: string)
    ensures cell.Str? ==> s == cell.s
  {
    if cell.Str? then cell.s else show(cell)
  }

  /** The keyword arguments `_apply_operation` itself passes to the client. */
  const CallKeywords: set<string> := {"model", "messages"}

  /** The operation's parameters that would reach the client a second time
      as keyword arguments; Python refuses such a call before it is made. */
  function RepeatedKeywords(op: SemanticOperation): (ks: set<string>)
    ensures ks == {} <==> "model" !in ParamsOrEmpty(op) && "messages" !in ParamsOrEmpty(op)
  {
    var ks := ParamsOrEmpty(op).Keys * CallKeywords;
    assert "model" in ParamsOrEmpty(op) ==> "model" in ks;
    assert "messages" in ParamsOrEmpty(op) ==> "messages" in ks;
    ks
  }

  /** `_apply_operation`: one synchronous completion call for one row, with
      the operation's model (or the default), the row's messages and the
      operation's parameters (or none). The input cell is read first; a
      parameter that repeats `model` or `messages` then makes the call
      itself fail. */
  function ApplyOperation(op: SemanticOperation, row: Row, complete: Completion, show: Formatter): (r: Result<Value, Error>)
    ensures op.inputColumn !in row ==> r == Err(MissingColumn(op.inputColumn))
    ensures op.inputColumn in row && RepeatedKeywords(op) != {} ==> r == Err(RepeatedKeyword(RepeatedKeywords(op)))
    ensures r.Ok? <==>
              op.inputColumn in row && "model" !in ParamsOrEmpty(op) && "messages" !in ParamsOrEmpty(op)
              && complete(OrElse(op.modelName, DefaultModel),
                          ConstructMessages(op, ContextText(row[op.inputColumn], show)),
                          ParamsOrEmpty(op)).Ok?
    ensures r.Ok? ==>
              complete(OrElse(op.modelName, DefaultModel),
                       ConstructMessages(op, ContextText(row[op.inputColumn], show)),
                       ParamsOrEmpty(op)) == Ok(r.value)
    ensures op.inputColumn in row && RepeatedKeywords(op) == {}
            && complete(OrElse(op.modelName, DefaultModel),
                        ConstructMessages(op, ContextText(row[op.inputColumn], show)),
                        ParamsOrEmpty(op)).Err? ==>
              r == Err(CompletionFailed(complete(OrElse(op.modelName, DefaultModel),
                                                 ConstructMessages(op, ContextText(row[op.inputColumn], show)),
                                                 ParamsOrEmpty(op)).error))
  {
    if op.inputColumn !in row then Err(MissingColumn(op.inputColumn))
    else
      var messages := ConstructMessages(op, ContextText(row[op.inputColumn], show));
      if RepeatedKeywords(op) != {} then Err(RepeatedKeyword(RepeatedKeywords(op)))
      else match complete(OrElse(op.modelName, DefaultModel), messages, ParamsOrEmpty(op))
      case Ok(content) => Ok(content)
      case Err(reason) => Err(CompletionFailed(reason))
  }

  /** The synchronous call never sends the structured-output schema: the
      result does not depend on `responseFormat`. */
  lemma ApplyIgnoresResponseFormat(op: SemanticOperation, format: Option<ResponseSchema>, row: Row,
                                   complete: Completion, show: Formatter)
    ensures ApplyOperation(op.(responseFormat := format), row, complete, show)
         == ApplyOperation(op, row, complete, show)
  {
  }

  /** A row's result depends on its input cell alone: rows that agree on it
      get the same result, whatever their other columns hold. */
  lemma ApplyReadsOnlyInputCell(op: SemanticOperation, row1: Row, row2: Row, complete: Completion, show: Formatter)
    requires op.inputColumn in row1 <==> op.inputColumn in row2
    requires op.inputColumn in row1 ==> row1[op.inputColumn] == row2[op.inputColumn]
    ensures ApplyOperation(op, row1, complete, show) == ApplyOperation(op, row2, complete, show)
  {
  }

  /** Writes `values[i]` into `column` of row `i`. */
  function SetColumn(table: Table, column: string, values: seq<Value>): (r: Table)
    requires |values| == |table|
    ensures |r| == |table|
    ensures forall i :: 0 <= i < |table| ==> r[i] == table[i][column := values[i]]
  {
    seq(|table|, i requires 0 <= i < |table| => table[i][column := values[i]])
  }

  /** One iteration of `extend`: the operation runs over every row and the
      results become the output column. A failing row aborts before the
      column is assigned, so nothing of the table changes then. */
  function ExtendOne(table: Table, op: SemanticOperation, complete: Completion, show: Formatter): (r: Result<Table, Error>)
    ensures r.Ok? ==> |r.value| == |table|
  {
    match MapAll(table, (row: Row) => ApplyOperation(op, row, complete, show))
    case Ok(values) => Ok(SetColumn(table, op.outputColumn, values))
    case Err(e) => Err(e)
  }

  /** Row-wise semantics of one operation: it succeeds exactly when every
      row succeeds, and then each row gains the output column holding its
      own result; otherwise the error is that of the first failing row. */
  lemma ExtendOneRowwise(table: Table, op: SemanticOperation, complete: Completion, show: Formatter)
    ensures var r := ExtendOne(table, op, complete, show);
            && (r.Ok? <==> forall i :: 0 <= i < |table| ==> ApplyOperation(op, table[i], complete, show).Ok?)
            && (r.Ok? ==>
                  forall i :: 0 <= i < |table| ==>
                    r.value[i] == table[i][op.outputColumn := ApplyOperation(op, table[i], complete, show).value])
            && (r.Err? ==>
                  exists i :: 0 <= i < |table| && ApplyOperation(op, table[i], complete, show) == Err(r.error)
                              && forall j :: 0 <= j < i ==> ApplyOperation(op, table[j], complete, show).Ok?)
  {
  }

  /** An operation changes only its output column: every row keeps every
      other column and its value, and gains the output column. */
  lemma OnlyOutputColumnChanges(table: Table, op: SemanticOperation, complete: Completion, show: Formatter)
    requires ExtendOne(table, op, complete, show).Ok?
    ensures forall i :: 0 <= i < |table| ==>
              var row := ExtendOne(table, op, complete, show).value[i];
              op.outputColumn in row && row - {op.outputColumn} == table[i] - {op.outputColumn}
  {
  }

  /** One operation as a step of the pass over the operation list. */
  function Step(complete: Completion, show: Formatter): (Table, SemanticOperation) -> Result<Table, Error> {
    (t: Table, op: SemanticOperation) => ExtendOne(t, op, complete, show)
  }

  /** `extend`: the operations run in list order, each over the table as
      left by its predecessors. The result is the table `extend` leaves and
      the error it raised, if any. */
  function Extend(table: Table, ops: seq<SemanticOperation>, complete: Completion, show: Formatter): (r: Progress<Table, Error>)
    ensures |r.state| == |table|
  {
    RunAllPreserves(table, ops, Step(complete, show), (t: Table) => |t| == |table|);
    RunAll(table, ops, Step(complete, show))
  }

  /** Extending by `ops1 + ops2` is extending by `ops1` and then, unless that
      failed, by `ops2`. */
  lemma {:induction false} ExtendChains(table: Table, ops1: seq<SemanticOperation>, ops2: seq<SemanticOperation>,
                                        complete: Completion, show: Formatter)
    ensures Extend(table, ops1 + ops2, complete, show)
         == (var mid := Extend(table, ops1, complete, show);
             if mid.failure.Some? then mid else Extend(mid.state, ops2, complete, show))
  {
    RunAllChains(table, ops1, ops2, Step(complete, show));
  }

  /** After a failure the table holds the results of the operations before
      the failing one, `ops[..k]`, and the failing operation `ops[k]` has
      written nothing. */
  lemma ExtendFailureKeepsPrefix(table: Table, ops: seq<SemanticOperation>, complete: Completion, show: Formatter)
    returns (k: nat)
    requires Extend(table, ops, complete, show).failure.Some?
    ensures k < |ops|
    ensures Extend(table, ops[..k], complete, show) == Progress(Extend(table, ops, complete, show).state, None)
    ensures ExtendOne(Extend(table, ops, complete, show).state, ops[k], complete, show)
         == Err(Extend(table, ops, complete, show).failure.value)
  {
    k := RunAllFailurePrefix(table, ops, Step(complete, show));
  }

  /** A two-operation `extend` that succeeds is two successful steps. */
  lemma ExtendPair(table: Table, op1: SemanticOperation, op2: SemanticOperation,
                   complete: Completion, show: Formatter)
    returns (mid: Table)
    requires Extend(table, [op1, op2], complete, show).failure.None?
    ensures ExtendOne(table, op1, complete, show) == Ok(mid)
    ensures ExtendOne(mid, op2, complete, show) == Ok(Extend(table, [op1, op2], complete, show).state)
  {
    mid := RunPair(table, op1, op2, Step(complete, show));
  }

  /** What a row looks like after `op1` then `op2`, when `op2` reads `op1`'s
      output: `op2`'s column holds the completion of `op1`'s result. */
  ghost predicate ChainedRow(row: Row, final: Row, op1: SemanticOperation, op2: SemanticOperation,
                             complete: Completion, show: Formatter)
  {
    && ApplyOperation(op1, row, complete, show).Ok?
    && op2.outputColumn in final
    && complete(OrElse(op2.modelName, DefaultModel),
                ConstructMessages(op2, ContextText(ApplyOperation(op1, row, complete, show).value, show)),
                ParamsOrEmpty(op2))
       == Ok(final[op2.outputColumn])
  }

  /** Operations chain: when `op2` reads `op1`'s output column, every row's
      `op2` result is the completion of the result `op1` computed for that
      same row. `ExtendPair` gives the two steps of a two-operation `extend`. */
  lemma ChainedOperationSeesEarlierResult(table: Table, mid: Table, fin: Table,
                                          op1: SemanticOperation, op2: SemanticOperation,
                                          complete: Completion, show: Formatter)
    requires op2.inputColumn == op1.outputColumn
    requires ExtendOne(table, op1, complete, show) == Ok(mid)
    requires ExtendOne(mid, op2, complete, show) == Ok(fin)
    ensures |fin| == |table|
    ensures forall i :: 0 <= i < |table| ==> ChainedRow(table[i], fin[i], op1, op2, complete, show)
  {
  }

  // ---- Batch files ------------------------------------------------------------

  /** The entry for one row: the input cell is read first, then the id cell. */
  function BatchEntry(row: Row, op: SemanticOperation, idColumn: string, show: Formatter): (r: Result<BatchRequest, Error>)
    ensures r.Ok? <==> op.inputColumn in row && idColumn in row
    ensures r.Ok? ==> r.value == ConstructBatchRequest(op, ContextText(row[op.inputColumn], show), row[idColumn])
    ensures op.inputColumn !in row ==> r == Err(MissingColumn(op.inputColumn))
    ensures op.inputColumn in row && idColumn !in row ==> r == Err(MissingColumn(idColumn))
  {
    if op.inputColumn !in row then Err(MissingColumn(op.inputColumn))
    else if idColumn !in row then Err(MissingColumn(idColumn))
    else Ok(ConstructBatchRequest(op, ContextText(row[op.inputColumn], show), row[idColumn]))
  }

  /** A string cell enters the prompt verbatim on both paths: the last
      message, which the synchronous call sends and the batch body stores,
      is the user message made of the prompt, the separator and the text. */
  lemma TextCellReachesPrompt(op: SemanticOperation, row: Row, t: string, idColumn: string,
                              complete: Completion, show: Formatter)
    requires op.inputColumn in row && row[op.inputColumn] == Str(t)
    ensures var sent := ConstructMessages(op, t);
            && sent[|sent| - 1] == Message(User, op.promptMessage + " Context: " + t)
            && (ApplyOperation(op, row, complete, show).Ok? ==>
                  complete(OrElse(op.modelName, DefaultModel), sent, ParamsOrEmpty(op))
                  == Ok(ApplyOperation(op, row, complete, show).value))
            && (idColumn in row && "messages" !in ParamsOrEmpty(op) ==>
                  MessagesFromValue(BatchEntry(row, op, idColumn, show).value.body["messages"]) == Some(sent))
  {
    var sent := ConstructMessages(op, t);
    assert Roles(sent)[|sent| - 1] == User;
    if idColumn in row {
      BatchRequestBody(op, t, row[idColumn]);
    }
  }

  /** The writing loop: one line per row in row order; a row that cannot be
      rendered stops the loop, and the lines before it stay written. The
      result is the lines written and the error that stopped the loop, if any. */
  function WriteEntries(rows: Table, op: SemanticOperation, idColumn: string, show: Formatter): (r: Progress<seq<BatchRequest>, Error>)
    ensures r.failure.None? ==>
              |r.state| == |rows| && forall i :: 0 <= i < |rows| ==> BatchEntry(rows[i], op, idColumn, show) == Ok(r.state[i])
    ensures r.failure.Some? ==>
              |r.state| < |rows|
              && (forall i :: 0 <= i < |r.state| ==> BatchEntry(rows[i], op, idColumn, show) == Ok(r.state[i]))
              && BatchEntry(rows[|r.state|], op, idColumn, show) == Err(r.failure.value)
  {
    MapUntilFailure(rows, (row: Row) => BatchEntry(row, op, idColumn, show))
  }

  /** `create_batch_file`: refuses tables of `MaxBatchRequests` rows or more,
      and otherwise writes one request per row, in row order. */
  function CreateBatchFile(table: Table, op: SemanticOperation, idColumn: string, show: Formatter)
    : (r: Progress<seq<BatchRequest>, Error>)
    ensures r.failure == Some(BatchSizeExceeded) <==> |table| >= 50000
    ensures |table| >= 50000 ==> r.state == []
    ensures r.failure.None? ==>
              |r.state| == |table|
              && forall i :: 0 <= i < |table| ==>
                   op.inputColumn in table[i] && idColumn in table[i]
                   && r.state[i] == ConstructBatchRequest(op, ContextText(table[i][op.inputColumn], show), table[i][idColumn])
                   && r.state[i].customId == table[i][idColumn]
    ensures |table| < 50000 && r.failure.Some? ==>
              |r.state| < |table|
              && (forall i :: 0 <= i < |r.state| ==> BatchEntry(table[i], op, idColumn, show) == Ok(r.state[i]))
              && BatchEntry(table[|r.state|], op, idColumn, show) == Err(r.failure.value)
  {
    if |table| >= MaxBatchRequests then Progress([], Some(BatchSizeExceeded))
    else WriteEntries(table, op, idColumn, show)
  }

  /** A table below the bound whose rows all carry both columns yields a
      complete batch file. */
  lemma CompleteBatchFile(table: Table, op: SemanticOperation, idColumn: string, show: Formatter)
    requires |table| < MaxBatchRequests
    requires forall i :: 0 <= i < |table| ==> op.inputColumn in table[i] && idColumn in table[i]
    ensures CreateBatchFile(table, op, idColumn, show).failure.None?
    ensures |CreateBatchFile(table, op, idColumn, show).state| == |table|
  {
  }
}

=== FILE: operations.dfy ===
/** A semantic operation: a declarative template that turns one table cell
    into a chat request for a language-model API, either as the message list
    of a synchronous call or as one entry of an offline batch file. */
module Operations {
  import opened Wrappers
  import opened Values

  /** Placed between the prompt and the per-row context in the user message. */
  const ContextSeparator: string := " Context: "
  /** The fixed HTTP method and path of every batch entry. */
  const BatchMethod: string := "POST"
  const BatchUrl: string := "/v1/chat/completions"

  datatype Role = System | User

  function RoleName(role: Role): string {
    match role
    case System => "system"
    case User => "user"
  }

  function RoleFromName(name: string): (r: Option<Role>)
    ensures r.Some? ==> RoleName(r.value) == name
  {
    if name == "system" then Some(System)
    else if name == "user" then Some(User)
    else None
  }

  datatype Message = Message(role: Role, content: string)

  /** A structured-output contract: the name of the schema class and the
      JSON schema it derives, both treated as opaque. */
  datatype ResponseSchema = ResponseSchema(name: string, schema: Value)

  datatype SemanticOperation = SemanticOperation(
    inputColumn: string,
    outputColumn: string,
    promptMessage: string,
    systemMessage: Option<string>,
    modelName: Option<string>,
    modelParams: Option<map<string, Value>>,
    responseFormat: Option<ResponseSchema>)

  /** `model_params or {}`: the parameters actually passed on. An empty
      dictionary and `None` pass nothing. */
  function ParamsOrEmpty(op: SemanticOperation): map<string, Value> {
    op.modelParams.GetOr(map[])
  }

  function Roles(ms: seq<Message>): (rs: seq<Role>)
    ensures |rs| == |ms|
    ensures forall i :: 0 <= i < |ms| ==> rs[i] == ms[i].role
  {
    if ms == [] then [] else [ms[0].role] + Roles(ms[1..])
  }

  /** The message list of one row: the system message (only when it is a
      non-empty string), then the user message made of the prompt, the
      separator and the raw context. */
  function ConstructMessages(op: SemanticOperation, context: string): (r: seq<Message>)
    ensures Roles(r) == if IsSet(op.systemMessage) then [System, User] else [User]
    ensures IsSet(op.systemMessage) ==> r[0].content == op.systemMessage.value
    ensures r[|r| - 1].content == op.promptMessage + " Context: " + context
  {
    var user := Message(User, op.promptMessage + ContextSeparator + context);
    if IsSet(op.systemMessage) then [Message(System, op.systemMessage.value), user] else [user]
  }

  /** Inverse of `ConstructMessages` on its context argument: the context is
      what follows the prompt and the separator in the last, user, message. */
  function RecoverContext(op: SemanticOperation, ms: seq<Message>): Option<string> {
    var prefix := op.promptMessage + ContextSeparator;
    if |ms| > 0 && ms[|ms| - 1].role == User && prefix <= ms[|ms| - 1].content
    then Some(ms[|ms| - 1].content[|prefix|..])
    else None
  }

  /** The context is passed through unchanged, however it looks (even empty or
      containing the separator), so it can be read back from the messages. */
  lemma RecoverContextInverts(op: SemanticOperation, context: string)
    ensures RecoverContext(op, ConstructMessages(op, context)) == Some(context)
  {
  }

  /** Everything but the user message is shared by all rows, and different
      contexts give different message lists. */
  lemma MessagesDifferOnlyInContext(op: SemanticOperation, c1: string, c2: string)
    ensures |ConstructMessages(op, c1)| == |ConstructMessages(op, c2)|
    ensures ConstructMessages(op, c1)[..|ConstructMessages(op, c1)| - 1]
         == ConstructMessages(op, c2)[..|ConstructMessages(op, c2)| - 1]
    ensures ConstructMessages(op, c1) == ConstructMessages(op, c2) <==> c1 == c2
  {
    if ConstructMessages(op, c1) == ConstructMessages(op, c2) {
      RecoverContextInverts(op, c1);
      RecoverContextInverts(op, c2);
    }
  }

  // ---- The dictionary form of messages -------------------------------------

  function MessageToValue(m: Message): Value {
    Dict(map["role" := Str(RoleName(m.role)), "content" := Str(m.content)])
  }

  function MessageFromValue(v: Value): Option<Message> {
    if v.Dict? && v.fields.Keys == {"role", "content"}
       && v.fields["role"].Str? && v.fields["content"].Str?
    then
      match RoleFromName(v.fields["role"].s)
      case Some(role) => Some(Message(role, v.fields["content"].s))
      case None => None
    else None
  }

  function EncodeAll(ms: seq<Message>): (vs: seq<Value>)
    ensures |vs| == |ms|
  {
    if ms == [] then [] else [MessageToValue(ms[0])] + EncodeAll(ms[1..])
  }

  function DecodeAll(vs: seq<Value>): Option<seq<Message>> {
    if vs == [] then Some([])
    else
      match (MessageFromValue(vs[0]), DecodeAll(vs[1..]))
      case (Some(m), Some(rest)) => Some([m] + rest)
      case _ => None
  }

  /** The `messages` list of a request body. */
  function MessagesToValue(ms: seq<Message>): Value {
    List(EncodeAll(ms))
  }

  function MessagesFromValue(v: Value): Option<seq<Message>> {
    if v.List? then DecodeAll(v.items) else None
  }

  lemma MessageRoundTrip(m: Message)
    ensures MessageFromValue(MessageToValue(m)) == Some(m)
  {
  }

  lemma {:induction false} DecodeEncodeAll(ms: seq<Message>)
    ensures DecodeAll(EncodeAll(ms)) == Some(ms)
    decreases |ms|
  {
    if ms != [] {
      var vs := EncodeAll(ms);
      assert vs[0] == MessageToValue(ms[0]) && vs[1..] == EncodeAll(ms[1..]);
      MessageRoundTrip(ms[0]);
      DecodeEncodeAll(ms[1..]);
      assert DecodeAll(vs) == Some([ms[0]] + ms[1..]);
      assert [ms[0]] + ms[1..] == ms;
    }
  }

  /** Decoding the `messages` list gives back exactly the messages encoded. */
  lemma MessagesRoundTrip(ms: seq<Message>)
    ensures MessagesFromValue(MessagesToValue(ms)) == Some(ms)
  {
    DecodeEncodeAll(ms);
  }

  // ---- The structured-output block ------------------------------------------

  /** The `response_format` block requesting strict JSON-schema output. */
  function ResponseFormatBlock(rf: ResponseSchema): Value {
    Dict(map[
      "type" := Str("json_schema"),
      "json_schema" := Dict(map["schema" := rf.schema, "name" := Str(rf.name), "strict" := Bool(true)])])
  }

  /** Reads a `response_format` block back; only a strict `json_schema`
      block of exactly the shape above is accepted. */
  function ResponseFormatFromBlock(v: Value): Option<ResponseSchema> {
    if v.Dict? && v.fields.Keys == {"type", "json_schema"}
       && v.fields["type"] == Str("json_schema") && v.fields["json_schema"].Dict?
    then
      var inner := v.fields["json_schema"].fields;
      if inner.Keys == {"schema", "name", "strict"}
         && inner["name"].Str? && inner["strict"] == Bool(true)
      then Some(ResponseSchema(inner["name"].s, inner["schema"]))
      else None
    else None
  }

  lemma ResponseFormatRoundTrip(rf: ResponseSchema)
    ensures ResponseFormatFromBlock(ResponseFormatBlock(rf)) == Some(rf)
  {
  }

  // ---- Batch requests --------------------------------------------------------

  /** One line of a batch file. The top-level keys are fixed; the body is an
      open dictionary. */
  datatype BatchRequest = BatchRequest(customId: Value, httpMethod: string, url: string, body: map<string, Value>)

  /** The keys the body of a request for `op` carries. */
  function BodyKeys(op: SemanticOperation): set<string> {
    {"model", "messages"} + ParamsOrEmpty(op).Keys
      + (if op.responseFormat.Some? then {"response_format"} else {})
  }

  /** The batch entry of one row. The body starts with the model and the
      messages; every parameter is then written into it, overwriting `model`
      or `messages` if so named; the structured-output block is written last
      and overwrites a parameter called `response_format`. */
  function ConstructBatchRequest(op: SemanticOperation, context: string, customId: Value): (r: BatchRequest)
    ensures r.customId == customId && r.httpMethod == "POST" && r.url == "/v1/chat/completions"
    ensures r.body.Keys == BodyKeys(op)
  {
    var base := map["model" := OptionalText(op.modelName),
                    "messages" := MessagesToValue(ConstructMessages(op, context))];
    var merged := base + ParamsOrEmpty(op);
    var body :=
      if op.responseFormat.None? then merged
      else merged["response_format" := ResponseFormatBlock(op.responseFormat.value)];
    BatchRequest(customId, BatchMethod, BatchUrl, body)
  }

  /** What the body holds: every parameter's value, unless the structured-
      output block replaced it; the model name (or null) and the rendered
      messages, unless a parameter replaced them; and the operation's schema
      in a strict `json_schema` block. */
  lemma BatchRequestBody(op: SemanticOperation, context: string, customId: Value)
    ensures var body := ConstructBatchRequest(op, context, customId).body;
            && (forall k :: k in ParamsOrEmpty(op) && !(k == "response_format" && op.responseFormat.Some?) ==>
                  body[k] == ParamsOrEmpty(op)[k])
            && ("model" !in ParamsOrEmpty(op) ==> body["model"] == OptionalText(op.modelName))
            && ("messages" !in ParamsOrEmpty(op) ==>
                  MessagesFromValue(body["messages"]) == Some(ConstructMessages(op, context)))
            && (op.responseFormat.Some? ==>
                  ResponseFormatFromBlock(body["response_format"]) == op.responseFormat)
  {
    MessagesRoundTrip(ConstructMessages(op, context));
    if op.responseFormat.Some? {
      ResponseFormatRoundTrip(op.responseFormat.value);
    }
  }

  /** Without parameters and without a response format the body holds the
      model and the messages and nothing else. */
  lemma BareBody(op: SemanticOperation, context: string, customId: Value)
    requires ParamsOrEmpty(op) == map[] && op.responseFormat.None?
    ensures ConstructBatchRequest(op, context, customId).body.Keys == {"model", "messages"}
  {
  }

  /** The body does not depend on the custom id. */
  lemma BodyIndependentOfId(op: SemanticOperation, context: string, id1: Value, id2: Value)
    ensures ConstructBatchRequest(op, context, id1).body == ConstructBatchRequest(op, context, id2).body
  {
  }
}

=== FILE: passes.dfy ===
/** The two passes the frame extender makes. A row-wise pass maps every row
    in order and stops at the first failure. A sequential pass runs steps in
    order, each on the state the previous one left, and stops at the first
    failing step with the state reached so far. */
module Passes {
  import opened Wrappers

  /** Applies `f` to every element in order; the first element on which `f`
      fails aborts the pass with that element's error. */
  function MapAll<A, T, E>(xs: seq<A>, f: A -> Result<T, E>): (r: Result<seq<T>, E>)
    ensures r.Ok? ==> |r.value| == |xs| && forall i :: 0 <= i < |xs| ==> f(xs[i]) == Ok(r.value[i])
    ensures r.Err? ==> exists i :: 0 <= i < |xs| && f(xs[i]) == Err(r.error)
                                  && forall j :: 0 <= j < i ==> f(xs[j]).Ok?
  {
    if xs == [] then Ok([])
    else
      match f(xs[0])
      case Err(e) => Err(e)
      case Ok(v) =>
        match MapAll(xs[1..], f)
        case Err(e) => assert xs[1..][0] == xs[1]; Err(e)
        case Ok(vs) => Ok([v] + vs)
  }

  /** Applies `f` to every element in order and keeps the results produced
      before the first failure, along with that failure. */
  function MapUntilFailure<A, T, E>(xs: seq<A>, f: A -> Result<T, E>): (r: Progress<seq<T>, E>)
    ensures r.failure.None? ==>
              |r.state| == |xs| && forall i :: 0 <= i < |xs| ==> f(xs[i]) == Ok(r.state[i])
    ensures r.failure.Some? ==>
              |r.state| < |xs|
              && (forall i :: 0 <= i < |r.state| ==> f(xs[i]) == Ok(r.state[i]))
              && f(xs[|r.state|]) == Err(r.failure.value)
  {
    if xs == [] then Progress([], None)
    else
      match f(xs[0])
      case Err(e) => Progress([], Some(e))
      case Ok(v) =>
        var rest := MapUntilFailure(xs[1..], f);
        Progress([v] + rest.state, rest.failure)
  }

  /** The state a sequential pass ends in, and the error that stopped it if any. */
  datatype Progress<S, E> = Progress(state: S, failure: Option<E>)

  function RunAll<S, O, E>(state: S, steps: seq<O>, step: (S, O) -> Result<S, E>): Progress<S, E>
    decreases |steps|
  {
    if steps == [] then Progress(state, None)
    else
      match step(state, steps[0])
      case Err(e) => Progress(state, Some(e))
      case Ok(next) => RunAll(next, steps[1..], step)
  }

  /** Running `xs + ys` is running `xs` and then, unless that failed, `ys`. */
  lemma {:induction false} RunAllChains<S, O, E>(state: S, xs: seq<O>, ys: seq<O>, step: (S, O) -> Result<S, E>)
    ensures RunAll(state, xs + ys, step)
         == (var mid := RunAll(state, xs, step);
             if mid.failure.Some? then mid else RunAll(mid.state, ys, step))
    decreases |xs|
  {
    if xs != [] {
      assert (xs + ys)[0] == xs[0];
      assert (xs + ys)[1..] == xs[1..] + ys;
      match step(state, xs[0])
      case Err(e) =>
      case Ok(next) => RunAllChains(next, xs[1..], ys, step);
    } else {
      assert xs + ys == ys;
    }
  }

  /** `r` is what a pass leaves when `steps[k]` is the first step to fail:
      the state after `steps[..k]`, and the error of `steps[k]` on it. */
  ghost predicate StoppedAt<S, O, E>(state: S, steps: seq<O>, k: int, step: (S, O) -> Result<S, E>, r: Progress<S, E>) {
    && 0 <= k < |steps|
    && r.failure.Some?
    && RunAll(state, steps[..k], step) == Progress(r.state, None)
    && step(r.state, steps[k]) == Err(r.failure.value)
  }

  /** A failed pass stopped at some step `k`: it holds the state after the
      steps before `k`, and step `k` changed nothing. */
  lemma {:induction false} RunAllFailurePrefix<S, O, E>(state: S, steps: seq<O>, step: (S, O) -> Result<S, E>)
    returns (k: nat)
    requires RunAll(state, steps, step).failure.Some?
    ensures StoppedAt(state, steps, k, step, RunAll(state, steps, step))
    decreases |steps|
  {
    match step(state, steps[0])
    case Err(e) =>
      assert steps[..0] == [];
      k := 0;
    case Ok(next) =>
      var k' := RunAllFailurePrefix(next, steps[1..], step);
      var prefix := steps[..k' + 1];
      assert prefix[0] == steps[0] && prefix[1..] == steps[1..][..k'];
      k := k' + 1;
  }

  /** A property every successful step preserves holds of the final state. */
  lemma {:induction false} RunAllPreserves<S, O, E>(state: S, steps: seq<O>, step: (S, O) -> Result<S, E>, inv: S -> bool)
    requires inv(state)
    requires forall s, o :: inv(s) && step(s, o).Ok? ==> inv(step(s, o).value)
    ensures inv(RunAll(state, steps, step).state)
    decreases |steps|
  {
    if steps != [] {
      match step(state, steps[0])
      case Err(e) =>
      case Ok(next) => RunAllPreserves(next, steps[1..], step, inv);
    }
  }

  /** A two-step pass that succeeds is two successful steps. */
  lemma RunPair<S, O, E>(state: S, a: O, b: O, step: (S, O) -> Result<S, E>) returns (mid: S)
    requires RunAll(state, [a, b], step).failure.None?
    ensures step(state, a) == Ok(mid)
    ensures step(mid, b) == Ok(RunAll(state, [a, b], step).state)
  {
    assert [a, b][0] == a && [a, b][1..] == [b];
    assert [b][0] == b && [b][1..] == [];
    assert step(state, a).Ok?;
    mid := step(state, a).value;
    assert RunAll(state, [a, b], step) == RunAll(mid, [b], step);
    assert step(mid, b).Ok?;
    assert RunAll(mid, [b], step) == RunAll(step(mid, b).value, [], step);
  }
}

=== FILE: scenarios.dfy ===
/** Concrete instances of the behaviour: a two-row review table, the edge
    cases of Python truthiness, and both sides of the batch-size bound. */
module Scenarios {
  import opened Wrappers
  import opened Values
  import opened Operations
  import opened Frame

  function Classify(system: Option<string>, params: Option<map<string, Value>>): SemanticOperation {
    SemanticOperation("review", "sentiment", "Classify sentiment.", system, None, params, None)
  }

  function Reviews(): Table {
    [map["review" := Str("bad"), "id" := Str("a")], map["review" := Str("great"), "id" := Str("b")]]
  }

  /** The request for the first review: one user message built from the
      review, and a null model. */
  lemma FirstReviewRequest()
    ensures var body := ConstructBatchRequest(Classify(None, None), "bad", Str("a")).body;
            && MessagesFromValue(body["messages"]) == Some([Message(User, "Classify sentiment. Context: bad")])
            && body["model"] == Null
  {
    BatchRequestBody(Classify(None, None), "bad", Str("a"));
    var ms := ConstructMessages(Classify(None, None), "bad");
    assert "Classify sentiment." + " Context: " + "bad" == "Classify sentiment. Context: bad";
    assert ms == [Message(User, "Classify sentiment. Context: bad")];
  }

  /** Two rows give two entries, in row order, each with its own id; the
      first is the request for its review. */
  lemma ReviewBatch(show: Formatter)
    ensures var file := CreateBatchFile(Reviews(), Classify(None, None), "id", show);
            && file.failure.None?
            && |file.state| == 2
            && file.state[0] == ConstructBatchRequest(Classify(None, None), "bad", Str("a"))
            && file.state[1].customId == Str("b")
  {
  }

  /** A system message heads every row's messages, unchanged. */
  lemma ReviewSystemMessage(context: string)
    ensures var ms := ConstructMessages(Classify(Some("You are a classifier."), None), context);
            |ms| == 2 && ms[0] == Message(System, "You are a classifier.") && ms[1].role == User
  {
  }

  /** An empty system message counts as none. */
  lemma EmptySystemMessageDropped(context: string)
    ensures ConstructMessages(Classify(Some(""), None), context)
         == [Message(User, "Classify sentiment. Context: " + context)]
  {
    var ms := ConstructMessages(Classify(Some(""), None), context);
    assert Roles(ms) == [User];
    assert Roles(ms)[0] == ms[0].role;
    assert "Classify sentiment." + " Context: " + context == "Classify sentiment. Context: " + context;
  }

  /** An empty model name falls back to the default in a synchronous call. */
  lemma EmptyModelNameUsesDefault()
    ensures OrElse(Some(""), DefaultModel) == "gpt-4o-mini"
  {
  }

  /** A pass-through parameter sits beside `model` and `messages`. */
  lemma TemperatureParameter(context: string, id: Value)
    ensures var body := ConstructBatchRequest(Classify(None, Some(map["temperature" := Int(0)])), context, id).body;
            body.Keys == {"model", "messages", "temperature"} && body["temperature"] == Int(0)
  {
  }

  /** A parameter named `model` silently replaces the model field. */
  lemma ModelParameterOverwrites(context: string, id: Value)
    ensures ConstructBatchRequest(Classify(None, Some(map["model" := Str("other")])), context, id).body["model"]
         == Str("other")
  {
  }

  function UniformTable(n: nat): (t: Table)
    ensures |t| == n
  {
    seq(n, _ => map["review" := Str("ok"), "id" := Str("x")])
  }

  /** The bound is strict: 49,999 rows are written, 50,000 are refused. */
  lemma BatchBound(show: Formatter)
    ensures CreateBatchFile(UniformTable(49999), Classify(None, None), "id", show).failure.None?
    ensures CreateBatchFile(UniformTable(50000), Classify(None, None), "id", show).failure == Some(BatchSizeExceeded)
  {
  }
}

=== FILE: tokens.dfy ===
/** Token-usage estimation: every row's raw input cell is tokenized with the
    encoding of the operation's model, and the counts are aggregated. */
module Tokens {
  import opened Wrappers
  import opened Operations
  import opened Passes
  import opened Frame

  /** The tokenizer library: which model names have an encoding, which texts
      hold a special token of a model's encoding (its encoder refuses those
      by default), and how many tokens a text has under a model's encoding. */
  datatype Tokenizer = Tokenizer(hasEncoding: string -> bool, hasSpecialToken: (string, string) -> bool,
                                 count: (string, string) -> nat)

  /** `_count_token_usage` on one row's input cell. The cell is looked up
      first, then the model's encoding (a missing model name has none); only
      a string cell can be encoded, and only when it holds no special token. */
  function RowTokens(row: Row, op: SemanticOperation, tok: Tokenizer): (r: Result<nat, Error>)
    ensures r.Ok? <==>
              op.inputColumn in row && row[op.inputColumn].Str?
              && op.modelName.Some? && tok.hasEncoding(op.modelName.value)
              && !tok.hasSpecialToken(row[op.inputColumn].s, op.modelName.value)
    ensures r.Ok? ==> r.value == tok.count(row[op.inputColumn].s, op.modelName.value)
    ensures op.inputColumn !in row ==> r == Err(MissingColumn(op.inputColumn))
    ensures op.inputColumn in row && (op.modelName.None? || !tok.hasEncoding(op.modelName.value)) ==>
              r == Err(UnsupportedModel(op.modelName))
    ensures op.inputColumn in row && !row[op.inputColumn].Str?
            && op.modelName.Some? && tok.hasEncoding(op.modelName.value) ==>
              r == Err(NotText(op.inputColumn))
    ensures op.inputColumn in row && row[op.inputColumn].Str?
            && op.modelName.Some? && tok.hasEncoding(op.modelName.value)
            && tok.hasSpecialToken(row[op.inputColumn].s, op.modelName.value) ==>
              r == Err(SpecialToken(op.inputColumn))
  {
    if op.inputColumn !in row then Err(MissingColumn(op.inputColumn))
    else if op.modelName.None? || !tok.hasEncoding(op.modelName.value) then Err(UnsupportedModel(op.modelName))
    else match row[op.inputColumn]
      case Str(text) =>
        if tok.hasSpecialToken(text, op.modelName.value) then Err(SpecialToken(op.inputColumn))
        else Ok(tok.count(text, op.modelName.value))
      case _ => Err(NotText(op.inputColumn))
  }

  function Sum(s: seq<nat>): nat {
    if s == [] then 0 else Sum(s[..|s| - 1]) + s[|s| - 1]
  }

  /** No single count exceeds the total. */
  lemma {:induction false} CountAtMostSum(s: seq<nat>, i: int)
    requires 0 <= i < |s|
    ensures s[i] <= Sum(s)
    decreases |s|
  {
    if i < |s| - 1 {
      CountAtMostSum(s[..|s| - 1], i);
    }
  }

  datatype TokenUsage = TokenUsage(total: nat, maxTokens: nat, minTokens: nat)

  /** The sum, maximum and minimum of a non-empty list of counts. */
  method TokenStats(counts: seq<nat>) returns (usage: TokenUsage)
    requires |counts| > 0
    ensures usage.total == Sum(counts)
    ensures forall i :: 0 <= i < |counts| ==> usage.minTokens <= counts[i] <= usage.maxTokens
    ensures usage.maxTokens in counts && usage.minTokens in counts
    ensures usage.maxTokens <= usage.total
  {
    var total := counts[0];
    var hi := counts[0];
    var lo := counts[0];
    var k := 1;
    assert counts[..1] == [counts[0]];
    while k < |counts|
      invariant 1 <= k <= |counts|
      invariant total == Sum(counts[..k])
      invariant forall i :: 0 <= i < k ==> lo <= counts[i] <= hi
      invariant hi in counts[..k] && lo in counts[..k]
    {
      assert counts[..k + 1][..k] == counts[..k];
      total := total + counts[k];
      if counts[k] > hi { hi := counts[k]; }
      if counts[k] < lo { lo := counts[k]; }
      k := k + 1;
    }
    assert counts[..k] == counts;
    var j :| 0 <= j < |counts| && counts[j] == hi;
    CountAtMostSum(counts, j);
    usage := TokenUsage(total, hi, lo);
  }

  /** `estimate_input_token_usage` (without the average): the counts of
      every row's raw input text, aggregated. The first row that cannot be
      counted aborts the estimate with its error. */
  method EstimateInputTokenUsage(table: Table, op: SemanticOperation, tok: Tokenizer)
    returns (r: Result<TokenUsage, Error>)
    requires |table| > 0
    ensures r.Ok? <==> forall i :: 0 <= i < |table| ==> RowTokens(table[i], op, tok).Ok?
    ensures r.Ok? ==>
              exists counts: seq<nat> ::
                |counts| == |table|
                && (forall i :: 0 <= i < |table| ==> RowTokens(table[i], op, tok) == Ok(counts[i]))
                && r.value.total == Sum(counts)
    ensures r.Ok? ==>
              forall i :: 0 <= i < |table| ==>
                r.value.minTokens <= RowTokens(table[i], op, tok).value <= r.value.maxTokens
    ensures r.Ok? ==> exists i :: 0 <= i < |table| && RowTokens(table[i], op, tok).value == r.value.maxTokens
    ensures r.Ok? ==> exists i :: 0 <= i < |table| && RowTokens(table[i], op, tok).value == r.value.minTokens
    ensures r.Ok? ==> r.value.maxTokens <= r.value.total
    ensures r.Ok? && |table| == 1 ==>
              r.value.total == r.value.maxTokens == r.value.minTokens == RowTokens(table[0], op, tok).value
    ensures r.Err? ==>
              exists i :: 0 <= i < |table| && RowTokens(table[i], op, tok) == Err(r.error)
                          && forall j :: 0 <= j < i ==> RowTokens(table[j], op, tok).Ok?
  {
    var counted := MapAll(table, (row: Row) => RowTokens(row, op, tok));
    match counted
    case Err(e) =>
      r := Err(e);
    case Ok(counts) =>
      var usage := TokenStats(counts);
      var hi :| 0 <= hi < |counts| && counts[hi] == usage.maxTokens;
      var lo :| 0 <= lo < |counts| && counts[lo] == usage.minTokens;
      assert RowTokens(table[hi], op, tok).value == usage.maxTokens;
      assert RowTokens(table[lo], op, tok).value == usage.minTokens;
      if |table| == 1 {
        assert counts == [counts[0]];
        assert Sum(counts) == counts[0] by {
          assert counts[..0] == [];
        }
      }
      r := Ok(usage);
  }
}

=== FILE: values.dfy ===
/** The JSON-like values the system handles: table cells, pass-through
    model parameters, and the dictionaries a batch request is made of. */
module Values {
  import opened Wrappers

  /** The Python floats that have no real value. */
  datatype NonFiniteFloat = NaN | PosInf | NegInf

  /** A Python value as it appears in a request dictionary or a table cell.
      A finite Python float is a Dafny real, without its rounding; `nan`,
      which pandas puts in a missing cell, and the infinities have their
      own case. */
  datatype Value =
    | Null
    | Bool(b: bool)
    | Int(i: int)
    | Float(r: real)
    | NonFinite(kind: NonFiniteFloat)
    | Str(s: string)
    | List(items: seq<Value>)
    | Dict(fields: map<string, Value>)

  /** Python truthiness of an optional string: both `None` and `""` are false. */
  predicate IsSet(s: Option<string>) {
    s.Some? && s.value != ""
  }

  /** Python's `s or default` for an optional string. */
  function OrElse(s: Option<string>, default: string): (r: string)
    ensures IsSet(s) ==> r == s.value
    ensures !IsSet(s) ==> r == default
  {
    if IsSet(s) then s.value else default
  }

  /** An optional string as it is stored in a dictionary: `None` becomes `null`. */
  function OptionalText(s: Option<string>): (v: Value)
    ensures v.Null? <==> s.None?
    ensures s.Some? ==> v == Str(s.value)
  {
    match s
    case None => Null
    case Some(t) => Str(t)
  }
}

=== FILE: wrappers.dfy ===
/** Optional values and outcomes used throughout the model: Python's `None`
    becomes `Option.None`, and an exception raised by the Python code becomes
    `Result.Err`. */
module Wrappers {

  datatype Option<+T> = None | Some(value: T) {

    /** The wrapped value, or `default` when there is none. */
    function GetOr(default: T): T {
      match this
      case Some(v) => v
      case None => default
    }
  }

  datatype Result<+T, +E> = Ok(value: T) | Err(error: E)
}
